=== FILE: README.md ===
# Telegram-to-webhook relay: a Dafny model of its decision logic

The relay listens for new messages on a Telegram account and POSTs a JSON
summary of each qualifying message to a webhook. This project models the
pure logic of `main.py`:

- how the EXCLUDED_CHATS and ALLOWED_CHATS values become lists of chat ids;
- the two checks the message handler makes on `str(event.chat_id)`;
- how the chat and sender display names are derived;
- how the chat type label is derived;
- the request headers and the payload.

It also models the handler as a whole, and the handler applied to a stream
of events.

The model has these parts:

- `Wrappers`: `Option`, and Python truthiness for optional attributes.
- `Text`: `str.split(",")` and `str.strip()`, with Python's white-space set.
- `Decimal`: `str(n)` for integers, including negative ids, and its inverse.
- `Filter`: the chat-id lists and the forwarding verdict.
- `Entities`: chat, sender and event records.
- `Naming`: `get_chat_name` and `get_sender_name`.
- `ChatKind`: `get_chat_type`.
- `Webhook`: `get_webhook_headers` and `build_webhook_data`.
- `Relay`: the configuration, the per-event handler and the event stream.
- `Scenarios`: concrete configurations and events.

Chat and sender objects are one `Entity` record of optional fields. An
attribute the object lacks, or that holds `None`, is `None`. An attribute
with a value is `Some(value)`. `hasattr(x, f) and x.f` is `IsTruthy` (present
and non-empty). `getattr(x, f, False)` is `IsSet` (present and true).
Environment values are `Option<string>` parameters.

The payload always includes `chat_type` (main.py:104). The handler is
registered for every new message (main.py:71) and applies the chat filters
itself.

"N/A" results when no name attribute is usable, and also when the chosen
first name or title is itself "N/A". `Naming.NoNameExactly` states this
condition exactly.

An ALLOWED_CHATS value of white space only is truthy. It splits and strips
to `[""]`, which is a non-empty allow list that no chat id matches, so every
chat is refused (`Filter.BlankAllowListBlocksAll`).

## Model

| member | source | states |
|---|---|---|
| `Text.TrimStart` | main.py:19 | the result is a suffix of the input; what was cut is all white space; the result does not start with white space |
| `Text.TrimEnd` | main.py:19 | the result is a prefix of the input; what was cut is all white space; the result does not end with white space |
| `Text.Strip` | main.py:19 | the result is the input minus white space at both ends, and has no white space at either edge |
| `Text.StripOfUnique` | main.py:19 | only one string meets the stripping specification, so `Strip` is fully determined by its contract |
| `Text.StripPadded` | main.py:19 | an entry padded with white space on both sides strips back to the entry |
| `Text.Split` | main.py:19 | splitting on a separator gives one more piece than there are separators, and no piece contains the separator |
| `Text.SplitWithoutSeparator` | main.py:19 | a value with no comma splits into the one-entry list holding it |
| `Text.JoinSplit` | main.py:19 | joining the pieces with the separator restores the original string, so splitting loses nothing |
| `Text.SplitJoin` | main.py:19 | splitting the join of separator-free pieces gives those pieces back, empty pieces included |
| `Decimal.IntToString` | main.py:73 | the rendering is non-empty, starts with `-` exactly for negative ids, and is otherwise digits with no leading zero (a rendering starting with "0" is exactly "0") |
| `Decimal.ParseIntToString` | main.py:73 | reading a rendering back yields the id rendered |
| `Decimal.IntToStringInjective` | main.py:73-76 | distinct chat ids never render the same, so a list entry matches at most one chat |
| `Decimal.IntToStringIsListSafe` | main.py:73-76 | a rendering is non-empty and holds no comma or edge white space, so it survives split and strip |
| `Filter.ChatIdList` | main.py:16-27 | an unset or empty value gives `[]`; otherwise one entry per comma plus one, each the stripped piece, with no comma and no edge white space |
| `Filter.ChatIdListOfPaddedEntries` | main.py:16-27 | a comma-separated list of white-space-padded entries reads back as exactly those entries |
| `Filter.Decide` | main.py:73-78 | a chat is excluded iff its id is in the exclusion list; it is refused iff it is not excluded, the allow list is non-empty and the id is not in it; it is forwarded iff it is neither |
| `Filter.ExclusionWins` | main.py:73-75 | an excluded chat is never forwarded, whatever the allow list holds |
| `Filter.ExclusionMonotone` | main.py:73-75 | adding exclusions never lets more chats through |
| `Filter.AllowListMonotone` | main.py:76-78 | adding entries to a non-empty allow list never blocks a chat that was forwarded |
| `Filter.BlankAllowListBlocksAll` | main.py:23-27 | a white-space-only ALLOWED_CHATS gives `[""]`, and then no chat is forwarded |
| `Naming.ChatName` | main.py:120-128 | a non-empty username wins as `@username`; otherwise a non-empty first name; otherwise a non-empty title; otherwise "N/A"; never empty |
| `Naming.SenderName` | main.py:110-118 | the sender's name is the chat-name derivation applied to the sender (see `Naming.SenderNameIsChatName`) |
| `Naming.SenderNameIsChatName` | main.py:110-128 | `get_sender_name` and `get_chat_name` agree on every entity |
| `Naming.FirstTruthy` | main.py:120-128 | the result is the fallback or the value of some truthy candidate |
| `Naming.ChatNameIsFirstTruthy` | main.py:120-128 | the name is the first truthy candidate in the order username (with `@`), first name, title, else "N/A" |
| `Naming.NameIgnoresFlags` | main.py:120-128 | the name depends only on username, first name and title |
| `Naming.NoNameExactly` | main.py:120-128 | "N/A" results exactly when no name attribute is usable, or when the chosen first name or title is itself "N/A" |
| `Naming.BareIsNoName` | main.py:110-128 | an entity with no name attributes is named "N/A" by both functions |
| `ChatKind.LabelsAreDistinct` | main.py:130-145 | every label is one of "direct", "channel", "group", "unknown", and distinct kinds have distinct labels |
| `ChatKind.Classify` | main.py:130-145 | direct iff private; channel iff not private and (broadcast, or no chat flag and the event is a channel but not a group); group iff not private, not broadcast and some group flag; unknown iff no flag at all |
| `ChatKind.PrivateIsDirect` | main.py:131-132 | a private event is labelled "direct" whatever the other flags hold |
| `ChatKind.BroadcastBeatsGroupFlags` | main.py:134-138 | a broadcast chat is a channel even if it is also marked megagroup or gigagroup |
| `ChatKind.ChatFlagsBeatEventFlags` | main.py:134-143 | once the chat has a kind flag, the event's group and channel flags do not affect the result |
| `Webhook.Headers` | main.py:34-51 | `Content-Type: application/json` is always present; each Cloudflare Access header is present exactly when its value is non-empty, and then equals it; no other key appears |
| `Webhook.HeaderCount` | main.py:41-51 | there is one header plus one per non-empty credential |
| `Webhook.OptionalId` | main.py:105 | a sender id is posted as its number, and a missing one as JSON null |
| `Webhook.Payload` | main.py:90-108 | the payload has exactly the six keys; chat id, sender id (null when the message has no sender) and message text are copied unchanged; names and type come from the derivations |
| `Webhook.PayloadFieldsWellFormed` | main.py:97-108 | chat and sender names are never empty and the chat type is one of the four labels |
| `Relay.LoadConfig` | main.py:68-69 | both lists are read once, as `Filter.ChatIdList` of EXCLUDED_CHATS and ALLOWED_CHATS: an unset or empty value gives no entries, otherwise the stripped comma-split pieces; the URL and credentials pass through unchanged |
| `Relay.Handle` | main.py:72-84 | a request is built exactly when the verdict is Forward; otherwise the drop reason is the verdict; the request carries the payload, the configured headers and URL, and a 10-second timeout |
| `Relay.Dispatches` | main.py:71-88 | over a stream, at most one request per event, and every request goes to the configured URL with the configured headers for a chat the filters admit |
| `Relay.OneRequestPerForwardedEvent` | main.py:72-84 | the number of requests equals the number of events that pass the filters |
| `Relay.DispatchesDistributes` | main.py:71-88 | events are handled independently: the requests for two streams in sequence are the two request sequences concatenated |
| `Relay.ExcludedChatNeverDispatched` | main.py:73-75 | no request is ever sent for an excluded chat |
| `Relay.OnlyAllowedChatsDispatched` | main.py:76-78 | with a non-empty allow list, every request is for a listed chat |
| `Scenarios.SmallRenderings` | main.py:73 | 42, 7, 8 and -15 render as "42", "7", "8" and "-15" |
| `Scenarios.SingleEntryList` | main.py:16-20 | EXCLUDED_CHATS="42" reads as `["42"]` |
| `Scenarios.TwoEntryList` | main.py:23-27 | ALLOWED_CHATS="7, 8" reads as `["7", "8"]` |
| `Scenarios.ExcludeListConfig` | main.py:16-20 | EXCLUDED_CHATS="42" with nothing else set gives the exclusion list `["42"]` and no allow list |
| `Scenarios.ExcludedChatScenario` | main.py:73-75 | with exclusion list `["42"]`, a message in chat 42 is dropped as excluded |
| `Scenarios.AllowListConfig` | main.py:23-27 | ALLOWED_CHATS="7, 8" with nothing else set gives no exclusions and the allow list `["7", "8"]` |
| `Scenarios.NoCredentialHeaders` | main.py:41-51 | with no Cloudflare credentials the headers are only the content type |
| `Scenarios.AllowedChatScenario` | main.py:72-108 | with allow list `["7", "8"]`, a private "hi" from @bob in chat 7 is posted with chat id 7, sender "@bob", type "direct" and only the content-type header |
| `Scenarios.NotAllowedChatScenario` | main.py:76-78 | with allow list `["7", "8"]`, a message in chat 42 is dropped as not allowed |
| `Scenarios.PaddedNegativeIdList` | main.py:16-20 | EXCLUDED_CHATS=" -15 ," reads as `["-15", ""]` |
| `Scenarios.PaddedNegativeIdScenario` | main.py:73-75 | with exclusion list `["-15", ""]`, a message in group -15 without a sender id is dropped as excluded |
| `Scenarios.NameScenarios` | main.py:120-128 | only a title gives the title; nothing gives "N/A"; a username hides first name and title; an empty username is skipped |
| `Scenarios.CredentialHeadersScenario` | main.py:41-51 | both credentials give three headers; an empty id gives only the content type |

## Left out

- Telegram client: session, authentication, `client.start`, the subscription and `run_until_disconnected` are library plumbing. The handler is a pure function over an event and the chat and sender already fetched.
- HTTP dispatch: the POST, `raise_for_status` and the caught request exception are network I/O. The model produces the one request that is attempted. Success or failure only affects the console log.
- Environment reads and `load_dotenv`: the values are `Option<string>` parameters (`Relay.Env`), read once into `Relay.Config`. The headers are rebuilt per event in the code. The environment does not change, so they are the same every time.
- The startup guard on WEBHOOK_URL and the startup log lines about the Cloudflare headers are process start-up. `Relay.Config` takes the URL as a string.
- Console logging (`print`) of decisions, entities and results has no effect on what is sent.
- Async/await and `asyncio.run`: the model is synchronous.
- Relay.Dispatches: lists one request per forwarded event in arrival order, but the handler suspends while fetching the chat and sender (main.py:80, 91-92), so the POSTs may leave in a different order from the events. Only the per-event request and the number of requests carry over; the same holds for the order in `Relay.DispatchesDistributes`.
- The numeric API_ID parse at import time is client configuration.
- JSON serialisation of the payload is done by the HTTP library. The payload is modelled as a map from key to an integer, a string or null (`Webhook.Json`).
- `Text.IsSpace` covers the characters Python's `str.isspace` accepts, as listed in Unicode's White_Space set and the 0x1C-0x1F separators. A later Unicode version adding white space would not be reflected.

=== FILE: chat_kind.dfy ===
/** `get_chat_type`: a fixed-priority cascade over the event's flags and the
    chat's flags that labels a chat "direct", "channel", "group" or "unknown".
 */
module ChatKind {

  import opened Wrappers
  import opened Entities

  datatype ChatType = Direct | Channel | Group | Unknown

  /** The four labels a chat can be given. */
  const Labels := {"direct", "channel", "group", "unknown"}

  /** The label sent in the payload. */
  function Label(t: ChatType): string
  {
    match t
    case Direct => "direct"
    case Channel => "channel"
    case Group => "group"
    case Unknown => "unknown"
  }

  /** Every result is one of the four labels, and each label names one kind. */
  lemma LabelsAreDistinct(a: ChatType, b: ChatType)
    ensures Label(a) in Labels
    ensures Label(a) == Label(b) ==> a == b
  {
  }

  /** The chat's own kind flags, set on channels and supergroups. */
  predicate ChatIsFlagged(chat: Entity) {
    IsSet(chat.broadcast) || IsSet(chat.megagroup) || IsSet(chat.gigagroup)
  }

  /** `get_chat_type`: private first, then the chat's broadcast flag, then its
      megagroup and gigagroup flags, then the event's group and channel flags. */
  function Classify(ev: Event, chat: Entity): (t: ChatType)
    ensures t == Direct <==> ev.isPrivate
    ensures t == Channel <==> !ev.isPrivate && (IsSet(chat.broadcast) || (!ChatIsFlagged(chat) && !ev.isGroup && ev.isChannel))
    ensures t == Group <==> !ev.isPrivate && !IsSet(chat.broadcast) && (IsSet(chat.megagroup) || IsSet(chat.gigagroup) || ev.isGroup)
    ensures t == Unknown <==> !ev.isPrivate && !ChatIsFlagged(chat) && !ev.isGroup && !ev.isChannel
  {
    if ev.isPrivate then Direct
    else if IsSet(chat.broadcast) then Channel
    else if IsSet(chat.megagroup) || IsSet(chat.gigagroup) then Group
    else if ev.isGroup then Group
    else if ev.isChannel then Channel
    else Unknown
  }

  /** A private event is "direct" whatever every other flag holds. */
  lemma PrivateIsDirect(ev: Event, chat: Entity)
    requires ev.isPrivate
    ensures Label(Classify(ev, chat)) == "direct"
  {
  }

  /** A broadcast chat is a channel even when it also claims to be a
      megagroup or gigagroup. */
  lemma BroadcastBeatsGroupFlags(ev: Event, chat: Entity)
    requires !ev.isPrivate && IsSet(chat.broadcast)
    ensures Classify(ev, chat) == Channel
  {
  }

  /** Once the chat carries a kind flag, the event's group and channel flags
      no longer matter. */
  lemma ChatFlagsBeatEventFlags(ev: Event, ev': Event, chat: Entity)
    requires ev.isPrivate == ev'.isPrivate
    requires ChatIsFlagged(chat)
    ensures Classify(ev, chat) == Classify(ev', chat)
  {
  }
}

=== FILE: decimal.dfy ===
/** Python's `str(n)` on an integer: the decimal rendering the relay compares
    against the configured chat-id lists (Telegram group and channel ids are
    negative). `ParseInt` reads such a rendering back and is its inverse.
 */
module Decimal {

  import opened Wrappers
  import Text

  predicate IsDigit(c: char) {
    '0' <= c <= '9'
  }

  /** A non-empty run of decimal digits. */
  predicate IsDigits(s: string) {
    |s| > 0 && forall i :: 0 <= i < |s| ==> IsDigit(s[i])
  }

  function DigitChar(d: nat): (c: char)
    requires d < 10
    ensures IsDigit(c)
  {
    (('0' as int) + d) as char
  }

  function DigitValue(c: char): (d: nat)
    requires IsDigit(c)
    ensures d < 10 && DigitChar(d) == c
  {
    (c as int) - ('0' as int)
  }

  /** Decimal digits of `n`, most significant first, no leading zeros. */
  function NatToString(n: nat): (r: string)
    ensures IsDigits(r)
    ensures r[0] == '0' ==> n == 0 && |r| == 1
    decreases n
  {
    if n < 10 then [DigitChar(n)] else NatToString(n / 10) + [DigitChar(n % 10)]
  }

  /** Python `str(n)` for an `int`: a minus sign for negative numbers, then
      the digits of the magnitude. */
  function IntToString(n: int): (r: string)
    ensures |r| > 0
    ensures r[0] == '-' <==> n < 0
    ensures n < 0 ==> IsDigits(r[1..])
    ensures n >= 0 ==> IsDigits(r)
    ensures n >= 0 ==> (r[0] == '0' ==> n == 0)
    ensures r[0] == '0' ==> r == "0"
    ensures n < 0 ==> r[1] != '0'
  {
    if n < 0 then "-" + NatToString(-n) else NatToString(n)
  }

  /** The value of a run of decimal digits. */
  function ParseNat(s: string): nat
    requires IsDigits(s)
    decreases |s|
  {
    if |s| == 1 then DigitValue(s[0])
    else 10 * ParseNat(s[..|s| - 1]) + DigitValue(s[|s| - 1])
  }

  /** Reads an optional minus sign followed by decimal digits. */
  function ParseInt(s: string): Option<int>
  {
    if |s| > 0 && s[0] == '-' then
      if IsDigits(s[1..]) then Some(0 - (ParseNat(s[1..]) as int)) else None
    else if IsDigits(s) then Some(ParseNat(s))
    else None
  }

  lemma {:induction false} ParseNatToString(n: nat)
    ensures ParseNat(NatToString(n)) == n
    decreases n
  {
    if n >= 10 {
      var a := NatToString(n / 10);
      var s := a + [DigitChar(n % 10)];
      assert s[..|s| - 1] == a;
      ParseNatToString(n / 10);
    }
  }

  /** Reading a rendering back yields the number rendered. */
  lemma ParseIntToString(n: int)
    ensures ParseInt(IntToString(n)) == Some(n)
  {
    if n < 0 {
      assert IntToString(n)[1..] == NatToString(-n);
      ParseNatToString(-n);
    } else {
      ParseNatToString(n);
    }
  }

  /** Distinct chat ids have distinct renderings, so a list entry matches at
      most one chat. */
  lemma IntToStringInjective(a: int, b: int)
    requires IntToString(a) == IntToString(b)
    ensures a == b
  {
    ParseIntToString(a);
    ParseIntToString(b);
  }

  /** A rendering holds no white space and no comma, so it can be written into
      a comma-separated list and read back through split and strip intact. */
  lemma IntToStringIsListSafe(n: int)
    ensures ',' !in IntToString(n)
    ensures Text.NoEdgeSpace(IntToString(n))
    ensures IntToString(n) != ""
  {
    var r := IntToString(n);
    if n < 0 {
      assert r[|r| - 1] == r[1..][|r| - 2];
      assert forall i :: 0 <= i < |r| - 1 ==> r[1..][i] == r[i + 1];
    }
  }
}

=== FILE: entities.dfy ===
/** The already-fetched data one new-message event gives the relay.

    The platform hands over chat and sender objects of several kinds (users,
    basic groups, channels), each exposing only some attributes; one record
    with optional fields stands for all of them.
 */
module Entities {

  import opened Wrappers

  /** A chat or sender object, with the attributes the relay inspects. */
  datatype Entity = Entity(
    username: Option<string>,
    firstName: Option<string>,
    title: Option<string>,
    broadcast: Option<bool>,
    megagroup: Option<bool>,
    gigagroup: Option<bool>)

  /** A new-message event: the ids, the message text and the event's own
      chat-kind flags. A message that carries no sender has no sender id. */
  datatype Event = Event(
    chatId: int,
    senderId: Option<int>,
    message: string,
    isPrivate: bool,
    isGroup: bool,
    isChannel: bool)

  /** An entity that exposes none of the inspected attributes, as when the
      sender cannot be fetched. */
  const Bare := Entity(None, None, None, None, None, None)
}

=== FILE: filter.dfy ===
/** Which chats the relay forwards: the comma-separated EXCLUDED_CHATS and
    ALLOWED_CHATS lists, and the two checks the message handler applies to
    `str(event.chat_id)` before anything else.
 */
module Filter {

  import opened Wrappers
  import opened Text
  import opened Decimal

  /** Strips every piece of a split list. */
  function StripAll(items: seq<string>): (r: seq<string>)
    ensures |r| == |items|
    ensures forall k :: 0 <= k < |r| ==> r[k] == Strip(items[k])
  {
    seq(|items|, k requires 0 <= k < |items| => Strip(items[k]))
  }

  /** `get_excluded_chat_ids` and `get_allowed_chat_ids`: an unset or empty
      value gives the empty list; any other value is split on commas and each
      piece stripped, empty pieces included. */
  function ChatIdList(env: Option<string>): (r: seq<string>)
    ensures !IsTruthy(env) ==> r == []
    ensures IsTruthy(env) ==> |r| == Count(env.value, ',') + 1
    ensures IsTruthy(env) ==> forall k :: 0 <= k < |r| ==> IsStripOf(Split(env.value, ',')[k], r[k])
    ensures forall k :: 0 <= k < |r| ==> ',' !in r[k] && NoEdgeSpace(r[k])
  {
    if IsTruthy(env) then
      var pieces := Split(env.value, ',');
      var r := StripAll(pieces);
      assert forall k :: 0 <= k < |r| ==> ',' !in r[k] by {
        forall k | 0 <= k < |r| ensures ',' !in r[k] {
          var i, j :| StripsAt(pieces[k], r[k], i, j);
          assert forall c :: c in r[k] ==> c in pieces[k];
        }
      }
      r
    else
      []
  }

  /** A list written out as comma-separated entries, each padded with any
      white space, reads back as the entries themselves. */
  lemma ChatIdListOfPaddedEntries(ids: seq<string>, pre: seq<string>, post: seq<string>, items: seq<string>)
    requires |ids| >= 1 && |pre| == |ids| && |post| == |ids| && |items| == |ids|
    requires forall k :: 0 <= k < |ids| ==> items[k] == pre[k] + ids[k] + post[k]
    requires forall k :: 0 <= k < |ids| ==> AllSpace(pre[k]) && AllSpace(post[k]) && NoEdgeSpace(ids[k])
    requires forall k :: 0 <= k < |ids| ==> ',' !in items[k]
    requires Join(items, ',') != ""
    ensures ChatIdList(Some(Join(items, ','))) == ids
  {
    SplitJoin(items, ',');
    forall k | 0 <= k < |ids| ensures Strip(items[k]) == ids[k] {
      StripPadded(pre[k], ids[k], post[k]);
    }
  }

  /** Why the handler stops, or that it goes on to build the payload. */
  datatype Verdict = Forward | ExcludedChat | NotAllowedChat

  /** The two checks at the top of the message handler, in order: the
      exclusion list first, then the allow list when it is non-empty. */
  function Decide(chatId: int, excluded: seq<string>, allowed: seq<string>): (v: Verdict)
    ensures v == ExcludedChat <==> IntToString(chatId) in excluded
    ensures v == NotAllowedChat <==> IntToString(chatId) !in excluded && |allowed| > 0 && IntToString(chatId) !in allowed
    ensures v == Forward <==> IntToString(chatId) !in excluded && (allowed == [] || IntToString(chatId) in allowed)
  {
    var key := IntToString(chatId);
    if key in excluded then ExcludedChat
    else if |allowed| > 0 && key !in allowed then NotAllowedChat
    else Forward
  }

  /** The exclusion list wins: an excluded chat is never forwarded, whatever
      the allow list says. */
  lemma ExclusionWins(chatId: int, excluded: seq<string>, allowed: seq<string>)
    requires IntToString(chatId) in excluded
    ensures Decide(chatId, excluded, allowed) != Forward
  {
  }

  /** Listing more chats as excluded never lets more chats through. */
  lemma ExclusionMonotone(chatId: int, excluded: seq<string>, more: seq<string>, allowed: seq<string>)
    requires forall e :: e in excluded ==> e in more
    requires Decide(chatId, more, allowed) == Forward
    ensures Decide(chatId, excluded, allowed) == Forward
  {
  }

  /** Once the allow list is non-empty, allowing more chats never blocks one
      that was forwarded. */
  lemma AllowListMonotone(chatId: int, excluded: seq<string>, allowed: seq<string>, more: seq<string>)
    requires |allowed| > 0
    requires forall e :: e in allowed ==> e in more
    requires Decide(chatId, excluded, allowed) == Forward
    ensures Decide(chatId, excluded, more) == Forward
  {
  }

  /** An ALLOWED_CHATS value of white space only is truthy, so it yields the
      one-entry list `[""]`; no chat id renders as the empty string, so every
      chat is then refused. */
  lemma BlankAllowListBlocksAll(chatId: int, excluded: seq<string>, env: string)
    requires env != "" && AllSpace(env)
    ensures ChatIdList(Some(env)) == [""]
    ensures Decide(chatId, excluded, ChatIdList(Some(env))) != Forward
  {
    SplitWithoutSeparator(env, ',');
    StripPadded(env, "", "");
    assert env + "" + "" == env;
    IntToStringIsListSafe(chatId);
  }
}

=== FILE: naming.dfy ===
/** `get_chat_name` and `get_sender_name`: the display name of a chat or a
    sender is the first non-empty of username (shown with a leading `@`),
    first name and title, or "N/A" when there is none.
 */
module Naming {

  import opened Wrappers
  import opened Entities

  const NoName := "N/A"

  /** `get_chat_name`. */
  function ChatName(chat: Entity): (r: string)
    ensures r != ""
    ensures IsTruthy(chat.username) ==> r == "@" + chat.username.value
    ensures !IsTruthy(chat.username) && IsTruthy(chat.firstName) ==> r == chat.firstName.value
    ensures !IsTruthy(chat.username) && !IsTruthy(chat.firstName) && IsTruthy(chat.title) ==> r == chat.title.value
    ensures !IsTruthy(chat.username) && !IsTruthy(chat.firstName) && !IsTruthy(chat.title) ==> r == NoName
  {
    if IsTruthy(chat.username) then "@" + chat.username.value
    else if IsTruthy(chat.firstName) then chat.firstName.value
    else if IsTruthy(chat.title) then chat.title.value
    else NoName
  }

  /** `get_sender_name`; the code repeats `get_chat_name`'s body. */
  function SenderName(sender: Entity): (r: string)
    ensures r == ChatName(sender)
  {
    if IsTruthy(sender.username) then "@" + sender.username.value
    else if IsTruthy(sender.firstName) then sender.firstName.value
    else if IsTruthy(sender.title) then sender.title.value
    else NoName
  }

  /** The two name functions agree on every entity. */
  lemma SenderNameIsChatName(e: Entity)
    ensures SenderName(e) == ChatName(e)
  {
  }

  /** The first candidate that is present and non-empty, or `fallback`. */
  function FirstTruthy(candidates: seq<Option<string>>, fallback: string): (r: string)
    ensures r == fallback || exists k :: 0 <= k < |candidates| && IsTruthy(candidates[k]) && r == candidates[k].value
    decreases |candidates|
  {
    if |candidates| == 0 then fallback
    else if IsTruthy(candidates[0]) then candidates[0].value
    else FirstTruthy(candidates[1..], fallback)
  }

  /** The candidates in priority order; a username only counts when it is
      non-empty, and then with its `@`. */
  function Candidates(e: Entity): seq<Option<string>>
  {
    [if IsTruthy(e.username) then Some("@" + e.username.value) else None, e.firstName, e.title]
  }

  /** The name is the first truthy candidate in the order username,
      first name, title. */
  lemma ChatNameIsFirstTruthy(e: Entity)
    ensures ChatName(e) == FirstTruthy(Candidates(e), NoName)
  {
    var c := Candidates(e);
    assert c[1..] == [e.firstName, e.title];
    assert c[1..][1..] == [e.title];
    assert c[1..][1..][1..] == [];
    assert FirstTruthy([e.title], NoName) == if IsTruthy(e.title) then e.title.value else NoName;
  }

  /** The name depends only on the three name attributes: the chat-kind flags
      never change it. */
  lemma NameIgnoresFlags(e: Entity, f: Entity)
    requires e.username == f.username && e.firstName == f.firstName && e.title == f.title
    ensures ChatName(e) == ChatName(f)
  {
  }

  /** "N/A" comes out exactly when no name attribute is usable, or when the
      attribute that was chosen itself reads "N/A" (a username never does,
      because of its `@`). */
  lemma NoNameExactly(e: Entity)
    ensures ChatName(e) == NoName <==>
      || (!IsTruthy(e.username) && !IsTruthy(e.firstName) && !IsTruthy(e.title))
      || (!IsTruthy(e.username) && IsTruthy(e.firstName) && e.firstName.value == NoName)
      || (!IsTruthy(e.username) && !IsTruthy(e.firstName) && IsTruthy(e.title) && e.title.value == NoName)
  {
    if IsTruthy(e.username) {
      assert ChatName(e)[0] == '@';
    }
  }

  /** An entity with no name attributes at all is named "N/A". */
  lemma BareIsNoName()
    ensures ChatName(Bare) == NoName && SenderName(Bare) == NoName
  {
  }
}

=== FILE: relay.dfy ===
/** The message handler of the relay as a pure function from one event, with
    its chat and sender already fetched, to the request it sends or the
    reason it sends none; and the same over a stream of events.
 */
module Relay {

  import opened Wrappers
  import opened Entities
  import opened Decimal
  import opened Filter
  import opened Webhook
  import Text

  /** The environment values the relay reads once at startup. */
  datatype Env = Env(
    excludedChats: Option<string>,
    allowedChats: Option<string>,
    clientId: Option<string>,
    clientSecret: Option<string>)

  /** The fixed configuration every event is handled under. */
  datatype Config = Config(
    webhookUrl: string,
    excluded: seq<string>,
    allowed: seq<string>,
    clientId: Option<string>,
    clientSecret: Option<string>)

  /** The lists are parsed once, at startup, from EXCLUDED_CHATS and
      ALLOWED_CHATS. */
  function LoadConfig(webhookUrl: string, env: Env): (cfg: Config)
    ensures cfg.webhookUrl == webhookUrl
    ensures cfg.excluded == ChatIdList(env.excludedChats) && cfg.allowed == ChatIdList(env.allowedChats)
    ensures cfg.clientId == env.clientId && cfg.clientSecret == env.clientSecret
    ensures !IsTruthy(env.excludedChats) ==> cfg.excluded == []
    ensures !IsTruthy(env.allowedChats) ==> cfg.allowed == []
    ensures forall k :: 0 <= k < |cfg.excluded| ==> ',' !in cfg.excluded[k] && Text.NoEdgeSpace(cfg.excluded[k])
    ensures forall k :: 0 <= k < |cfg.allowed| ==> ',' !in cfg.allowed[k] && Text.NoEdgeSpace(cfg.allowed[k])
  {
    Config(webhookUrl, ChatIdList(env.excludedChats), ChatIdList(env.allowedChats), env.clientId, env.clientSecret)
  }

  /** Seconds the relay waits for the webhook to answer. */
  const RequestTimeout: nat := 10

  /** One POST to the webhook. */
  datatype Request = Request(
    url: string,
    body: map<string, Json>,
    headers: map<string, string>,
    timeoutSeconds: nat)

  /** An event together with the chat and sender fetched for it. */
  datatype Incoming = Incoming(event: Event, chat: Entity, sender: Entity)

  datatype Outcome = Dropped(reason: Verdict) | Dispatched(request: Request)

  /** The message handler: the filter checks, then exactly one request built
      from the payload, the headers and the configured URL. */
  function Handle(cfg: Config, inc: Incoming): (o: Outcome)
    ensures o.Dispatched? <==> Decide(inc.event.chatId, cfg.excluded, cfg.allowed) == Forward
    ensures o.Dropped? ==> o.reason == Decide(inc.event.chatId, cfg.excluded, cfg.allowed)
    ensures o.Dispatched? ==> o.request == Request(cfg.webhookUrl, Payload(inc.event, inc.chat, inc.sender), Headers(cfg.clientId, cfg.clientSecret), RequestTimeout)
  {
    var verdict := Decide(inc.event.chatId, cfg.excluded, cfg.allowed);
    if verdict == Forward then
      Dispatched(Request(cfg.webhookUrl, Payload(inc.event, inc.chat, inc.sender), Headers(cfg.clientId, cfg.clientSecret), RequestTimeout))
    else
      Dropped(verdict)
  }

  /** The chat id a request's body reports. */
  function BodyChatId(req: Request): int
    requires "chat_id" in req.body && req.body["chat_id"].JInt?
  {
    req.body["chat_id"].i
  }

  /** A request the relay may send under `cfg`: to the configured URL, with the
      configured headers and timeout, for a chat the filters let through. */
  ghost predicate Admissible(cfg: Config, req: Request) {
    && req.url == cfg.webhookUrl
    && req.headers == Headers(cfg.clientId, cfg.clientSecret)
    && req.timeoutSeconds == RequestTimeout
    && req.body.Keys == PayloadKeys
    && req.body["chat_id"].JInt?
    && Decide(BodyChatId(req), cfg.excluded, cfg.allowed) == Forward
  }

  /** The requests sent for a stream of events: one entry per forwarded
      event, listed in arrival order. */
  function Dispatches(cfg: Config, stream: seq<Incoming>): (sent: seq<Request>)
    ensures |sent| <= |stream|
    ensures forall k :: 0 <= k < |sent| ==> Admissible(cfg, sent[k])
    decreases |stream|
  {
    if |stream| == 0 then []
    else
      var rest := Dispatches(cfg, stream[1..]);
      match Handle(cfg, stream[0])
      case Dispatched(req) => [req] + rest
      case Dropped(_) => rest
  }

  /** The number of events in the stream that pass the filters. */
  function ForwardedCount(cfg: Config, stream: seq<Incoming>): nat
    decreases |stream|
  {
    if |stream| == 0 then 0
    else
      var here := if Decide(stream[0].event.chatId, cfg.excluded, cfg.allowed) == Forward then 1 else 0;
      here + ForwardedCount(cfg, stream[1..])
  }

  /** Exactly one request per forwarded event. */
  lemma {:induction false} OneRequestPerForwardedEvent(cfg: Config, stream: seq<Incoming>)
    ensures |Dispatches(cfg, stream)| == ForwardedCount(cfg, stream)
    decreases |stream|
  {
    if |stream| > 0 {
      OneRequestPerForwardedEvent(cfg, stream[1..]);
    }
  }

  /** Handling is per event: the requests for two streams back to back are the
      requests for the first followed by those for the second. */
  lemma {:induction false} DispatchesDistributes(cfg: Config, s1: seq<Incoming>, s2: seq<Incoming>)
    ensures Dispatches(cfg, s1 + s2) == Dispatches(cfg, s1) + Dispatches(cfg, s2)
    decreases |s1|
  {
    if |s1| > 0 {
      assert (s1 + s2)[0] == s1[0];
      assert (s1 + s2)[1..] == s1[1..] + s2;
      DispatchesDistributes(cfg, s1[1..], s2);
      match Handle(cfg, s1[0])
      case Dispatched(req) =>
        assert Dispatches(cfg, s1) == [req] + Dispatches(cfg, s1[1..]);
      case Dropped(_) =>
    } else {
      assert s1 + s2 == s2;
    }
  }

  /** No request is ever sent for an excluded chat, whatever the allow list. */
  lemma ExcludedChatNeverDispatched(cfg: Config, stream: seq<Incoming>, chatId: int)
    requires IntToString(chatId) in cfg.excluded
    ensures forall req :: req in Dispatches(cfg, stream) ==> req.body["chat_id"] != JInt(chatId)
  {
  }

  /** With a non-empty allow list, every request is for a listed chat. */
  lemma OnlyAllowedChatsDispatched(cfg: Config, stream: seq<Incoming>)
    requires |cfg.allowed| > 0
    ensures forall req :: req in Dispatches(cfg, stream) ==> IntToString(BodyChatId(req)) in cfg.allowed
  {
  }
}

=== FILE: scenarios.dfy ===
/** Concrete configurations and events, and what the handler does with them.
 */
module Scenarios {

  import opened Wrappers
  import opened Text
  import opened Decimal
  import opened Entities
  import opened Filter
  import opened Webhook
  import opened Relay
  import Naming

  /** Renderings of the ids used below. */
  lemma SmallRenderings()
    ensures IntToString(42) == "42" && IntToString(7) == "7" && IntToString(8) == "8"
    ensures IntToString(-15) == "-15"
  {
    assert NatToString(42) == NatToString(4) + [DigitChar(2)];
    assert NatToString(15) == NatToString(1) + [DigitChar(5)];
  }

  /** EXCLUDED_CHATS="42" reads as one entry. */
  lemma SingleEntryList()
    ensures ChatIdList(Some("42")) == ["42"]
  {
    assert Join(["42"], ',') == "42";
    ChatIdListOfPaddedEntries(["42"], [""], [""], ["42"]);
  }

  /** ALLOWED_CHATS="7, 8" reads as two entries, the space dropped. */
  lemma TwoEntryList()
    ensures ChatIdList(Some("7, 8")) == ["7", "8"]
  {
    var items := ["7", " 8"];
    assert Join(items, ',') == "7, 8" by {
      assert Join(items[1..], ',') == " 8";
    }
    assert AllSpace(" ");
    assert items[1] == " " + "8" + "";
    ChatIdListOfPaddedEntries(["7", "8"], ["", " "], ["", ""], items);
  }

  /** EXCLUDED_CHATS="42" with nothing else set. */
  lemma ExcludeListConfig()
    ensures LoadConfig("https://hook", Env(Some("42"), None, None, None)) == Config("https://hook", ["42"], [], None, None)
  {
    SingleEntryList();
  }

  /** Under the exclusion list "42" (`ExcludeListConfig`), a message in chat 42
      is dropped as excluded. */
  lemma ExcludedChatScenario(sender: Entity, chat: Entity, msg: string)
    ensures Handle(
      Config("https://hook", ["42"], [], None, None),
      Incoming(Event(42, Some(1), msg, false, true, false), chat, sender)) == Dropped(ExcludedChat)
  {
    SmallRenderings();
  }

  /** Under the allow list "7, 8" and no exclusions (`AllowListConfig`), a
      message "hi" from @bob in chat 7 is posted with the sender's handle and
      the text unchanged. */
  lemma AllowedChatScenario(chat: Entity)
    ensures
      var cfg := Config("https://hook", [], ["7", "8"], None, None);
      var bob := Entity(Some("bob"), Some("Bob"), None, None, None, None);
      var o := Handle(cfg, Incoming(Event(7, Some(99), "hi", true, false, false), chat, bob));
      && o.Dispatched?
      && o.request.body["chat_id"] == JInt(7)
      && o.request.body["sender_id"] == JInt(99)
      && o.request.body["sender_name"] == JString("@bob")
      && o.request.body["message"] == JString("hi")
      && o.request.body["chat_type"] == JString("direct")
      && o.request.headers == map[ContentTypeHeader := JsonMediaType]
  {
    var bob := Entity(Some("bob"), Some("Bob"), None, None, None, None);
    SmallRenderings();
    Naming.SenderNameIsChatName(bob);
    NoCredentialHeaders();
  }

  /** The configuration of the allow-list scenarios. */
  lemma AllowListConfig()
    ensures LoadConfig("https://hook", Env(None, Some("7, 8"), None, None)) == Config("https://hook", [], ["7", "8"], None, None)
  {
    TwoEntryList();
  }

  /** Without credentials only the content type is sent. */
  lemma NoCredentialHeaders()
    ensures Headers(None, None) == map[ContentTypeHeader := JsonMediaType]
  {
  }

  /** Under the same allow list, a message in chat 42 is refused. */
  lemma NotAllowedChatScenario(chat: Entity, sender: Entity)
    ensures Handle(
      Config("https://hook", [], ["7", "8"], None, None),
      Incoming(Event(42, Some(1), "hi", false, true, false), chat, sender)) == Dropped(NotAllowedChat)
  {
    SmallRenderings();
  }

  /** EXCLUDED_CHATS=" -15 ," reads as the negative group id and, for the
      trailing comma, an empty entry that matches nothing. */
  lemma PaddedNegativeIdList()
    ensures ChatIdList(Some(" -15 ,")) == ["-15", ""]
  {
    assert Join([" -15 ", ""], ',') == " -15 ," by {
      assert Join([" -15 ", ""][1..], ',') == "";
    }
    assert AllSpace(" ") && AllSpace("");
    assert " -15 " == " " + "-15" + " ";
    assert "" == "" + "" + "";
    ChatIdListOfPaddedEntries(["-15", ""], [" ", ""], [" ", ""], [" -15 ", ""]);
  }

  /** With that list, a message in group -15 is dropped as excluded. */
  lemma PaddedNegativeIdScenario(chat: Entity, sender: Entity)
    ensures Handle(
      Config("u", ["-15", ""], [], None, None),
      Incoming(Event(-15, None, "", false, false, true), chat, sender)) == Dropped(ExcludedChat)
  {
    SmallRenderings();
  }

  /** Display names: only a title, nothing at all, and a username that hides
      every other field. */
  lemma NameScenarios()
    ensures Naming.ChatName(Entity(None, None, Some("Group A"), None, None, None)) == "Group A"
    ensures Naming.ChatName(Bare) == "N/A"
    ensures Naming.ChatName(Entity(Some("x"), Some("Xavier"), Some("X chat"), None, None, None)) == "@x"
    ensures Naming.ChatName(Entity(Some(""), Some("Ann"), None, None, None, None)) == "Ann"
  {
  }

  /** Both Cloudflare Access credentials set: three headers. */
  lemma CredentialHeadersScenario()
    ensures Headers(Some("id"), Some("secret")) ==
      map[ContentTypeHeader := JsonMediaType, ClientIdHeader := "id", ClientSecretHeader := "secret"]
    ensures Headers(Some(""), None) == map[ContentTypeHeader := JsonMediaType]
  {
  }
}

=== FILE: text.dfy ===
/** The two Python string operations the chat-id lists are built from:
    `str.split(sep)` with an explicit one-character separator, and `str.strip()`
    with no argument.
 */
module Text {

  /** Python's `str.isspace` for one character: the ASCII controls tab through
      carriage return, the information separators 0x1C-0x1F, and the Unicode
      white-space code points. */
  predicate IsSpace(c: char) {
    || ('\t' <= c <= '\r')
    || ('\U{1c}' <= c <= '\U{1f}')
    || c == ' '
    || c == '\U{85}'
    || c == '\U{a0}'
    || c == '\U{1680}'
    || ('\U{2000}' <= c <= '\U{200a}')
    || c == '\U{2028}'
    || c == '\U{2029}'
    || c == '\U{202f}'
    || c == '\U{205f}'
    || c == '\U{3000}'
  }

  predicate AllSpace(s: string) {
    forall i :: 0 <= i < |s| ==> IsSpace(s[i])
  }

  /** Neither the first nor the last character is white space. */
  predicate NoEdgeSpace(s: string) {
    s == [] || (!IsSpace(s[0]) && !IsSpace(s[|s| - 1]))
  }

  /** `s` is white space up to index `i`, then `r` up to index `j`, then white
      space again. */
  predicate StripsAt(s: string, r: string, i: int, j: int) {
    0 <= i <= j <= |s| && r == s[i..j] && AllSpace(s[..i]) && AllSpace(s[j..])
  }

  /** `r` is what remains of `s` once the white space at both ends is cut off:
      `s` is some white space, then `r`, then some white space, and `r` itself
      neither starts nor ends with white space. */
  ghost predicate IsStripOf(s: string, r: string) {
    NoEdgeSpace(r) && exists i, j :: StripsAt(s, r, i, j)
  }

  /** Drops the white space at the start of `s` (Python `str.lstrip()`). */
  function TrimStart(s: string): (r: string)
    ensures |r| <= |s| && r == s[|s| - |r|..]
    ensures AllSpace(s[..|s| - |r|])
    ensures r == [] || !IsSpace(r[0])
    decreases |s|
  {
    if |s| > 0 && IsSpace(s[0]) then
      var r := TrimStart(s[1..]);
      assert s[1..][..|s| - 1 - |r|] == s[1..|s| - |r|];
      assert forall i :: 1 <= i < |s| - |r| ==> s[i] == s[1..][..|s| - 1 - |r|][i - 1];
      r
    else
      s
  }

  /** Drops the white space at the end of `s` (Python `str.rstrip()`). */
  function TrimEnd(s: string): (r: string)
    ensures |r| <= |s| && r == s[..|r|]
    ensures AllSpace(s[|r|..])
    ensures r == [] || !IsSpace(r[|r| - 1])
    decreases |s|
  {
    if |s| > 0 && IsSpace(s[|s| - 1]) then
      var r := TrimEnd(s[..|s| - 1]);
      assert forall i :: |r| <= i < |s| - 1 ==> s[i] == s[..|s| - 1][|r|..][i - |r|];
      r
    else
      s
  }

  /** Python `str.strip()` with no argument. */
  function Strip(s: string): (r: string)
    ensures IsStripOf(s, r)
  {
    var t := TrimStart(s);
    var r := TrimEnd(t);
    TrimBothEnds(s, t, r);
    r
  }

  /** Cutting white space from the start and then from the end leaves a piece
      of the original bounded by white space on both sides. */
  lemma TrimBothEnds(s: string, t: string, r: string)
    requires |t| <= |s| && t == s[|s| - |t|..] && AllSpace(s[..|s| - |t|])
    requires t == [] || !IsSpace(t[0])
    requires |r| <= |t| && r == t[..|r|] && AllSpace(t[|r|..])
    requires r == [] || !IsSpace(r[|r| - 1])
    ensures NoEdgeSpace(r)
    ensures StripsAt(s, r, |s| - |t|, |s| - |t| + |r|)
  {
    var i := |s| - |t|;
    var j := i + |r|;
    assert s[j..] == t[|r|..];
    assert r == s[i..j];
    if r != [] {
      assert r[0] == t[0];
    }
  }

  /** What `StripsAt` says about the characters of `s` around the piece. */
  lemma StripsAtSpaces(s: string, r: string, i: int, j: int)
    requires StripsAt(s, r, i, j)
    ensures forall k :: 0 <= k < i ==> IsSpace(s[k])
    ensures forall k :: j <= k < |s| ==> IsSpace(s[k])
    ensures forall k :: i <= k < j ==> s[k] == r[k - i]
  {
    assert forall k :: 0 <= k < i ==> s[k] == s[..i][k];
    assert forall k :: j <= k < |s| ==> s[k] == s[j..][k - j];
  }

  /** A non-empty stripped piece starts at the first non-space character and
      ends at the last one. */
  lemma StripBoundsAgree(s: string, r1: string, i1: int, j1: int, r2: string, i2: int, j2: int)
    requires StripsAt(s, r1, i1, j1) && StripsAt(s, r2, i2, j2)
    requires r1 != [] && r2 != [] && NoEdgeSpace(r1) && NoEdgeSpace(r2)
    ensures i1 == i2 && j1 == j2
  {
    StripsAtSpaces(s, r1, i1, j1);
    StripsAtSpaces(s, r2, i2, j2);
  }

  /** When the stripped piece is empty, `s` is all white space, so no other
      piece can start with a non-space character. */
  lemma StripEmptyAgree(s: string, i1: int, j1: int, r2: string, i2: int, j2: int)
    requires StripsAt(s, [], i1, j1) && StripsAt(s, r2, i2, j2)
    requires NoEdgeSpace(r2)
    ensures r2 == []
  {
    StripsAtSpaces(s, [], i1, j1);
    StripsAtSpaces(s, r2, i2, j2);
  }

  /** The stripping specification admits exactly one result, so `Strip` is
      completely described by its contract. */
  lemma StripOfUnique(s: string, r1: string, r2: string)
    requires IsStripOf(s, r1) && IsStripOf(s, r2)
    ensures r1 == r2
  {
    var i1, j1 :| StripsAt(s, r1, i1, j1);
    var i2, j2 :| StripsAt(s, r2, i2, j2);
    if r1 == [] {
      StripEmptyAgree(s, i1, j1, r2, i2, j2);
    } else if r2 == [] {
      StripEmptyAgree(s, i2, j2, r1, i1, j1);
    } else {
      StripBoundsAgree(s, r1, i1, j1, r2, i2, j2);
    }
  }

  /** A string padded with white space on both sides strips back to itself. */
  lemma StripPadded(pre: string, x: string, post: string)
    requires AllSpace(pre) && AllSpace(post) && NoEdgeSpace(x)
    ensures Strip(pre + x + post) == x
  {
    var s := pre + x + post;
    assert x == s[|pre|..|pre| + |x|];
    assert s[..|pre|] == pre;
    assert s[|pre| + |x|..] == post;
    assert StripsAt(s, x, |pre|, |pre| + |x|);
    StripOfUnique(s, Strip(s), x);
  }

  /** Number of occurrences of `c` in `s`. */
  function Count(s: string, c: char): nat
    decreases |s|
  {
    if |s| == 0 then 0 else (if s[0] == c then 1 else 0) + Count(s[1..], c)
  }

  /** Python `s.split(sep)`: the pieces between separators, empty ones included;
      the empty string splits into one empty piece. */
  function Split(s: string, sep: char): (r: seq<string>)
    ensures |r| == Count(s, sep) + 1
    ensures forall k :: 0 <= k < |r| ==> sep !in r[k]
    decreases |s|
  {
    if |s| == 0 then
      [""]
    else
      var rest := Split(s[1..], sep);
      if s[0] == sep then [""] + rest else [[s[0]] + rest[0]] + rest[1..]
  }

  /** Python `sep.join(parts)`. */
  function Join(parts: seq<string>, sep: char): string
    decreases |parts|
  {
    if |parts| == 0 then ""
    else if |parts| == 1 then parts[0]
    else parts[0] + [sep] + Join(parts[1..], sep)
  }

  /** Splitting loses nothing: joining the pieces restores the string. */
  lemma {:induction false} JoinSplit(s: string, sep: char)
    ensures Join(Split(s, sep), sep) == s
    decreases |s|
  {
    if |s| > 0 {
      var rest := Split(s[1..], sep);
      JoinSplit(s[1..], sep);
      if s[0] == sep {
        assert ([""] + rest)[1..] == rest;
      } else if |rest| > 1 {
        var parts := [[s[0]] + rest[0]] + rest[1..];
        assert parts[1..] == rest[1..];
        assert Join(rest, sep) == rest[0] + [sep] + Join(rest[1..], sep);
      }
    }
  }

  /** A piece free of separators splits into itself. */
  lemma {:induction false} SplitWithoutSeparator(a: string, sep: char)
    requires sep !in a
    ensures Split(a, sep) == [a]
    decreases |a|
  {
    if |a| > 0 {
      SplitWithoutSeparator(a[1..], sep);
      assert [a[0]] + a[1..] == a;
    }
  }

  /** A separator-free piece followed by a separator comes off as one piece. */
  lemma {:induction false} SplitLeadingPiece(a: string, sep: char, b: string)
    requires sep !in a
    ensures Split(a + [sep] + b, sep) == [a] + Split(b, sep)
    decreases |a|
  {
    var s := a + [sep] + b;
    if |a| == 0 {
      assert s[1..] == b;
    } else {
      assert s[1..] == a[1..] + [sep] + b;
      SplitLeadingPiece(a[1..], sep, b);
      assert [a[0]] + a[1..] == a;
    }
  }

  /** Joining separator-free pieces and splitting again gives the pieces back. */
  lemma {:induction false} SplitJoin(parts: seq<string>, sep: char)
    requires |parts| >= 1
    requires forall k :: 0 <= k < |parts| ==> sep !in parts[k]
    ensures Split(Join(parts, sep), sep) == parts
    decreases |parts|
  {
    if |parts| == 1 {
      SplitWithoutSeparator(parts[0], sep);
    } else {
      SplitJoin(parts[1..], sep);
      SplitLeadingPiece(parts[0], sep, Join(parts[1..], sep));
      assert [parts[0]] + parts[1..] == parts;
    }
  }
}

=== FILE: webhook.dfy ===
/** What one webhook request carries: the headers of `get_webhook_headers`
    and the JSON body of `build_webhook_data`.
 */
module Webhook {

  import opened Wrappers
  import opened Entities
  import Naming
  import ChatKind

  const ContentTypeHeader := "Content-Type"
  const ClientIdHeader := "CF-Access-Client-Id"
  const ClientSecretHeader := "CF-Access-Client-Secret"
  const JsonMediaType := "application/json"

  /** `get_webhook_headers`, given the CF_ACCESS_CLIENT_ID and
      CF_ACCESS_CLIENT_SECRET values: the content type always, and each
      Cloudflare Access header when its value is set and non-empty. */
  function Headers(clientId: Option<string>, clientSecret: Option<string>): (h: map<string, string>)
    ensures ContentTypeHeader in h && h[ContentTypeHeader] == JsonMediaType
    ensures ClientIdHeader in h <==> IsTruthy(clientId)
    ensures IsTruthy(clientId) ==> h[ClientIdHeader] == clientId.value
    ensures ClientSecretHeader in h <==> IsTruthy(clientSecret)
    ensures IsTruthy(clientSecret) ==> h[ClientSecretHeader] == clientSecret.value
    ensures h.Keys <= {ContentTypeHeader, ClientIdHeader, ClientSecretHeader}
  {
    var base := map[ContentTypeHeader := JsonMediaType];
    var withId := if IsTruthy(clientId) then base[ClientIdHeader := clientId.value] else base;
    if IsTruthy(clientSecret) then withId[ClientSecretHeader := clientSecret.value] else withId
  }

  /** The number of headers is one plus the number of credentials given. */
  lemma HeaderCount(clientId: Option<string>, clientSecret: Option<string>)
    ensures |Headers(clientId, clientSecret)| == 1 + (if IsTruthy(clientId) then 1 else 0) + (if IsTruthy(clientSecret) then 1 else 0)
  {
    assert ContentTypeHeader != ClientIdHeader && ClientIdHeader != ClientSecretHeader && ContentTypeHeader != ClientSecretHeader;
    var base := map[ContentTypeHeader := JsonMediaType];
    var withId := if IsTruthy(clientId) then base[ClientIdHeader := clientId.value] else base;
    assert |withId| == 1 + (if IsTruthy(clientId) then 1 else 0);
    var h := if IsTruthy(clientSecret) then withId[ClientSecretHeader := clientSecret.value] else withId;
    assert h == Headers(clientId, clientSecret);
  }

  /** The JSON values the payload holds; `JNull` is a missing sender id. */
  datatype Json = JNull | JInt(i: int) | JString(s: string)

  /** An optional id as JSON: the number, or null. */
  function OptionalId(id: Option<int>): (j: Json)
    ensures j == JNull <==> id.None?
    ensures id.Some? ==> j == JInt(id.value)
  {
    match id
    case Some(v) => JInt(v)
    case None => JNull
  }

  const PayloadKeys := {"chat_id", "chat_name", "chat_type", "sender_id", "sender_name", "message"}

  /** `build_webhook_data`, over the chat and sender already fetched for the
      event. */
  function Payload(ev: Event, chat: Entity, sender: Entity): (d: map<string, Json>)
    ensures d.Keys == PayloadKeys
    ensures d["chat_id"] == JInt(ev.chatId)
    ensures d["sender_id"] == (if ev.senderId.Some? then JInt(ev.senderId.value) else JNull)
    ensures d["message"] == JString(ev.message)
    ensures d["chat_name"] == JString(Naming.ChatName(chat))
    ensures d["sender_name"] == JString(Naming.SenderName(sender))
    ensures d["chat_type"] == JString(ChatKind.Label(ChatKind.Classify(ev, chat)))
  {
    map[
      "chat_id" := JInt(ev.chatId),
      "chat_name" := JString(Naming.ChatName(chat)),
      "chat_type" := JString(ChatKind.Label(ChatKind.Classify(ev, chat))),
      "sender_id" := OptionalId(ev.senderId),
      "sender_name" := JString(Naming.SenderName(sender)),
      "message" := JString(ev.message)]
  }

  /** The textual fields are never empty and the chat type is one of the four
      labels, whatever the event and entities hold. */
  lemma PayloadFieldsWellFormed(ev: Event, chat: Entity, sender: Entity)
    ensures Payload(ev, chat, sender)["chat_name"].s != ""
    ensures Payload(ev, chat, sender)["sender_name"].s != ""
    ensures Payload(ev, chat, sender)["chat_type"].s in ChatKind.Labels
  {
    Naming.SenderNameIsChatName(sender);
    ChatKind.LabelsAreDistinct(ChatKind.Classify(ev, chat), ChatKind.Direct);
  }
}

=== FILE: wrappers.dfy ===
/** Optional values, and the Python truthiness tests the relay applies to them.

    An attribute that an entity does not expose, or that holds `None`, is
    modelled as `None`; an attribute that holds a value is `Some(value)`.
 */
module Wrappers {

  datatype Option<+T> = None | Some(value: T)

  /** `hasattr(x, f) and x.f` for a string attribute: present and non-empty. */
  predicate IsTruthy(o: Option<string>) {
    o.Some? && o.value != ""
  }

  /** `getattr(x, f, False)` for a boolean attribute, read as a condition. */
  predicate IsSet(o: Option<bool>) {
    o == Some(true)
  }
}
